=== FILE: README.md ===
# Thai Telegram bot: the per-message pipeline

A Dafny model of the message handler of a Telegram bot that translates an
English message to Thai, replies with both texts, and tries to send a Thai voice clip.
For one inbound message, the handler does the following:

1. It trims the text and ignores a blank message.
2. It shows the "typing" action.
3. It asks the translator for the Thai text and replies with the Thai part, a line break, then the English part. The reply has exactly two lines when neither part contains a line break of its own.
4. It asks the speech synthesizer to speak the trimmed Thai text.
5. When there is a voice file, it sends an audio reply built from the file name `thai_voice.mp3`. What that upload carries is recorded under "## Findings".
6. It reports an exception raised inside the `try` block (translation, reply, synthesis or audio) with one error reply. Two failures are not reported: a failing typing action, which comes before the `try`, and a failing error reply. Both escape the handler.

Everything outside the handler is an oracle in `Handler.Services`:

- the translator and the synthesizer, as functions from the text they are given to a result or a raised error;
- each of the four sends, as a fixed outcome: the typing action, the text reply, the audio reply and the error reply.

For one message, the handler's observable behaviour is a `Handler.Handling` with three parts:

- the events actually delivered to the chat, in order;
- the requests made to the translator and the synthesizer, in order, with their language codes;
- the exception that escaped the handler, if there was one.

Modules:

- `Outcomes`: `Option`, `Result` (returned or raised) and the opaque `Error`. It also models Python's `x or ""` and f-string rendering of `str | None`.
- `PyStrings`: `str.strip()` over Python's `str.isspace()` character set. It has three parts:
  - a functional definition;
  - a two-ended scan (`StripIndices`);
  - a declarative description (`StrippedAt`). The functional definition is proved to be its unique solution.
- `Translation`: `translate_to_thai` and the reply layout `Format`. `LaidOut` says where each part of the reply sits, for every translation. `Parse` is proved inverse to the layout for one-line translations.
- `Speech`: `make_tts`.
- `Handler`: `handle_message`, built from the `try` block (`TryBlock`, `Replying`, `VoiceStage`) and the `except` clause (`Settle`, with the error text `ErrorText`). The `Admissible` grammar describes every trace shape, independently of how the trace is produced.
- `HandlerLaws`: properties of the handler's trace, one per situation.
- `Upload`: what the audio upload at bot.py:44 sends, as written and as intended (see "## Findings").
- `HandlerSteps`: an independent small-step reading of the same handler, with one machine step per statement of the handler body. `RunAgrees` proves that it gives exactly the same result as `HandleMessage` on every input.

## Model

| member | source | states |
|---|---|---|
| PyStrings.StripSound | bot.py:33 | `Strip`, the model of `strip()` used at lines 18 and 33, returns the slice of the text that starts after the leading whitespace. Only whitespace lies before and after that slice, and the slice has no whitespace at either end. |
| PyStrings.StripUnique | bot.py:33 | Any slice that has only whitespace around it and no whitespace at its ends is exactly what `strip()` returns. |
| PyStrings.StripEmptyIffBlank | bot.py:18-19 | `strip()` gives the empty string exactly when every character is whitespace, which is the emptiness test in `if not text` and `if not th_text`. |
| PyStrings.StripIdempotent | bot.py:33 | Stripping an already stripped text changes nothing. |
| PyStrings.StripIndices | bot.py:33 | The two-ended index scan (forward past leading whitespace, backward past trailing whitespace without crossing) selects exactly the `strip()` result and meets the declarative description. |
| Translation.TranslateToThai | bot.py:12-14 | The translator is called on the given text. Its exception propagates unchanged. Otherwise the Thai answer is returned with a reply laid out, for every answer, as the Thai tag, the answer, a line break, the British tag and the given text. When the answer is one line, the reply reads back as the answer and the given text. |
| Translation.ParseFormat | bot.py:14 | Reading back a reply built by `Format` from a one-line translation and a source text recovers exactly that translation and that source text. |
| Translation.FormatParse | bot.py:14 | Everything the reader accepts is a reply built by the layout from a one-line translation, so reader and layout are mutually inverse. |
| Translation.FormatInjective | bot.py:14 | Distinct one-line translations, or distinct source texts, give distinct replies. |
| Translation.FormatLaidOut | bot.py:14 | For every translation, including one with line breaks, the reply starts with the Thai tag and the translation, then a line break, and ends with the British tag and the source text, with nothing else in it. |
| Translation.LaidOutIsFormat | bot.py:14 | Any text with the parts where `LaidOut` puts them is the reply `Format` builds, so the layout description is complete. |
| Translation.MultiLineIsAmbiguous | bot.py:14 | A translation containing a line break and the British tag gives the same reply as a different translation and source text, so the reply cannot always be read back. |
| Speech.MakeTts | bot.py:17-24 | No file, and no synthesizer call, exactly when the Thai text is `None` or whitespace only. Otherwise the synthesizer speaks the non-empty trimmed slice of the text, its exception propagates, and success returns `thai_voice.mp3`. |
| Speech.SpokenIsStripped | bot.py:18-22 | The text handed to the synthesizer is exactly what `strip()` leaves of the Thai text. |
| Handler.TryBlock | bot.py:38-44 | The first request of the `try` block is the English-to-Thai translation of the trimmed text. The block delivers no error reply, and what it delivers is nothing, a reply, or a reply followed by the voice file. |
| Handler.Replying | bot.py:39-44 | A translator exception reaches the `except` clause with nothing delivered. Something is delivered exactly when the translation and the reply succeed, and then the first event is the formatted reply. Earlier requests are kept as a prefix. |
| Handler.VoiceStage | bot.py:42-44 | After the reply went out, the block delivers either just the reply, or the reply followed by `thai_voice.mp3`. When something raised, the audio was not delivered. |
| Handler.Settle | bot.py:45-46 | The `except` clause keeps everything delivered before it. When the block raised and the error reply goes out, it appends exactly one event: the error reply carrying the raised exception. An exception escapes exactly when the block raised and the error reply itself fails, and it is the error reply's own exception. |
| Handler.ErrorTextInjective | bot.py:46 | The error reply `ErrorText` is the warning tag followed by `str(e)`, so different exception texts give different error replies. |
| Handler.HandleMessage | bot.py:32-46 | Every trace fits the `Admissible` grammar. The trace, the requests and the escaped exception are all empty exactly when the message is blank. |
| HandlerLaws.TypingFailureEscapes | bot.py:36-38 | For a non-blank message, a failing typing action escapes the handler and nothing else happens. |
| HandlerLaws.TypingThenTranslate | bot.py:36-39 | Once the typing action is delivered, it is the first and only typing event. The first request is the English-to-Thai translation of the trimmed message. |
| HandlerLaws.ReplyLayout | bot.py:14 | After a successful translation whose reply goes out, the second event is the reply built from the translation and the trimmed message. For a one-line translation, reading it back gives the Thai part first and the English part second. |
| HandlerLaws.SourceIsTrimmedMessage | bot.py:33 | The English part is the non-empty message with exactly its surrounding whitespace removed. |
| HandlerLaws.TranslationFailureReply | bot.py:38-46 | A failed translation is followed only by one error reply carrying its exception: no reply text, no audio and no synthesis. If the error reply fails, its exception escapes after the typing action. |
| HandlerLaws.ReplyFailureReply | bot.py:40-46 | A reply that cannot be sent is reported by one error reply carrying that failure, with no audio and no synthesis. If that error reply fails, its exception escapes. |
| HandlerLaws.BlankTranslationTextOnly | bot.py:18-20 | An empty, whitespace-only or `None` translation still has its reply sent. No audio follows, no synthesis is requested and nothing is raised. |
| HandlerLaws.SpokenTranslationSendsVoice | bot.py:42-44 | A non-blank translation is handed, trimmed, to the synthesizer in Thai. When synthesis and the audio send succeed, the trace is typing, reply, `thai_voice.mp3`. |
| HandlerLaws.LateFailureKeepsReply | bot.py:40-46 | A synthesis or audio failure after the reply keeps the reply and appends exactly one error reply carrying that failure. No audio is delivered. |
| HandlerLaws.CleanRunExactlyWhenAllSucceed | bot.py:36-46 | For a non-blank message, no exception escapes and no error reply is sent exactly when every step succeeded. That means typing, translation and reply, plus synthesis and audio for a non-blank translation. |
| HandlerLaws.CleanRunTrace | bot.py:36-44 | On a clean run the trace is typing then reply. It ends with the voice file exactly when the translation is not blank. |
| HandlerLaws.AtMostOneOfEach | bot.py:36-46 | Every trace holds at most one event of each kind. Audio comes directly after the reply and always names `thai_voice.mp3`. |
| HandlerLaws.ErrorReplyReportsTheFailure | bot.py:38-46 | An error reply is sent exactly when the `try` block raised and the error reply went out. It is then the last event and carries the exception the block raised. |
| HandlerSteps.RunAgrees | bot.py:32-46 | The statement-by-statement machine and the compositional model produce the same trace, the same requests and the same escaped exception on every message and every combination of outcomes. |
| HandlerSteps.Step | bot.py:33-46 | Each step of the statement-by-statement machine moves strictly closer to the end of the handler and only appends to the delivered events and to the requests. |
| Upload.AsWrittenSendsTheName | bot.py:44 | As written, the audio upload is the encoding of the name `thai_voice.mp3`: fourteen bytes starting with `t`, the same whatever audio was saved. |
| Upload.AsWrittenLosesTheAudio | bot.py:44 | A saved mp3 that starts with an ID3 tag is not what the code as written uploads. |
| Upload.UploadSendsTheSavedAudio | bot.py:23-24 | The intended upload sends exactly the audio saved under the voice file name, and raises when no such file exists. |

## Left out

- The `start` command handler (bot.py:27-30): a constant reply with no logic.
- `main`, handler registration, the webhook server and the message filter (bot.py:48-62). The model accepts any text, including commands the filter would keep away.
- Reading `BOT_TOKEN`, `WEBHOOK_HOST` and `PORT` from the environment (bot.py:7-9).
- The translator (`GoogleTranslator`) and the synthesizer (`gTTS`): both are network services. They are oracle functions of the text they receive. The model records the request, with its language codes, and not what the service does.
- Writing the mp3 file (bot.py:23): this is file I/O and part of the synthesizer oracle. The trace's `AudioReply` records the name handed to `InputFile` at bot.py:44. What that upload sends is modelled separately in `Upload`.
- An update with no `message`, such as an edited message or a channel post, which the filter at bot.py:51 lets through: `update.message.text` (bot.py:33) raises `AttributeError` before the `try`, so the exception escapes with no events. The model's input is the text of a present message, and its `None` stands for a message without text.
- The text of `str(e)`: it is the opaque `Error.detail`. The error reply is modelled as the fixed prefix followed by that text.
- The async scheduling and concurrent messages, including the race on the shared file name `thai_voice.mp3`: the model covers one message at a time.
- Python strings may contain lone surrogate code points. Dafny `char` values are Unicode scalar values, so such strings are not represented.
- Exceptions that derive only from `BaseException`, such as `asyncio.CancelledError`: `except Exception` (bot.py:45) does not catch them, so they leave the handler with no error reply. `Result.Raised` stands only for `Exception` subclasses, and the model does not represent the others.
- The library behind `InputFile`: how it treats a `str` belongs to python-telegram-bot 20 and later, not to bot.py. `Upload` states that behaviour as the UTF-8 encoding of the name and models nothing else of the library.
- The model follows the code as written. In particular:
  - a synthesis or audio failure after the reply is reported to the user with an extra error reply;
  - an empty translation still sends the reply;
  - the reply is the Thai part, a line break and the English part, and it has more than two lines when the message or the translation contains a line break;
  - the voice file name is fixed and shared by every message.

## Findings

| source | as written | input that shows it | evidently intended | confidence | as-written member | corrected member |
|---|---|---|---|---|---|---|
| bot.py:44 | `InputFile(voice)` is given the file name as a `str`. From python-telegram-bot 20 on, `InputFile` uploads a `str` as its own UTF-8 bytes, so the upload is the 14 bytes of `thai_voice.mp3` and the saved mp3 is never read. | any synthesized mp3 whose content starts with the ID3 tag `ID3` | upload the saved file's content, e.g. `InputFile(open(voice, "rb"))` | medium, not executed: it rests on the library's documented handling of `str` | Upload.AsWrittenLosesTheAudio | Upload.UploadSendsTheSavedAudio |

=== FILE: handler.dfy ===
/** `handle_message` (bot.py lines 32-46): what the bot does with one inbound
    text message.

    Everything the handler touches outside itself is an oracle in `Services`:
    the translator and the synthesizer as functions of the text they are given,
    and each of the four sends (typing action, text reply, audio reply, error
    reply) as a fixed outcome. The handler's observable behaviour is a
    `Handling`: the events actually delivered to the chat, in order, the
    requests made to the translator and the synthesizer, in order, and the
    exception that left the handler, if one did.
 */
module Handler {
  import opened Outcomes
  import opened PyStrings
  import opened Translation
  import opened Speech

  /** "⚠️ Error: ": warning sign, variation selector 16, then the label. */
  const ErrorTag: string := "\U{26A0}\U{FE0F} Error: "

  /** The error reply sent from the `except` clause; `e.detail` is `str(e)`. */
  function ErrorText(e: Error): string {
    ErrorTag + e.detail
  }

  /** The error reply reads back as the tag followed by exactly `str(e)`. */
  lemma ErrorTextReadsBack(e: Error)
    ensures |ErrorText(e)| == |ErrorTag| + |e.detail|
    ensures ErrorText(e)[..|ErrorTag|] == ErrorTag
    ensures ErrorText(e)[|ErrorTag|..] == e.detail
  {
  }

  /** Different exception texts give different error replies. */
  lemma ErrorTextInjective(e1: Error, e2: Error)
    requires ErrorText(e1) == ErrorText(e2)
    ensures e1 == e2
  {
    ErrorTextReadsBack(e1);
    ErrorTextReadsBack(e2);
  }

  /** A message delivered to the chat. */
  datatype Event =
    | Typing                   // the "typing" chat action
    | TextReply(body: string)  // a text message
    | AudioReply(file: string) // an audio message with the named file
    | ErrorReply(body: string) // the text message reporting an exception

  /** A request made to an external provider. */
  datatype Call =
    | Translate(text: string, source: string, target: string)
    | Synthesize(text: string, language: string)

  /** The outside world as one message sees it. */
  datatype Services = Services(
    translate: string -> Result<Option<string>>, // GoogleTranslator(source="en", target="th").translate
    synthesize: string -> Result<()>,            // gTTS(text=..., lang="th") followed by save
    typing: Result<()>,                          // chat.send_action("typing")
    textReply: Result<()>,                       // reply_text(formatted)
    audioReply: Result<()>,                      // reply_audio(...)
    errorReply: Result<()>                       // reply_text(f"⚠️ Error: {e}")
  )

  /** What one message leaves behind. */
  datatype Handling = Handling(sent: seq<Event>, calls: seq<Call>, escaped: Option<Error>)

  /** What the body of the `try` block leaves behind: the exception it raised,
      if any, is still to be handled by the `except` clause. */
  datatype Attempt = Attempt(sent: seq<Event>, calls: seq<Call>, raised: Option<Error>)

  /** A blank message: nothing is left of it once trimmed. */
  predicate Blank(text: Option<string>) {
    AllSpace(OrEmpty(text))
  }

  /** The trimmed message text the handler works with. */
  function Source(text: Option<string>): string {
    Strip(OrEmpty(text))
  }

  /** The synthesizer request a run of `make_tts` made, if any. */
  function SpeechCalls(tts: Tts): seq<Call> {
    match tts.spoken
    case None => []
    case Some(t) => [Synthesize(t, VoiceLanguage)]
  }

  /** The shapes a trace can take, independently of how it is produced:
      nothing at all, or the typing action followed by one of
        nothing | an error reply | a text reply | a text reply then an error
        reply | a text reply then the voice file. */
  predicate Admissible(sent: seq<Event>) {
    || sent == []
    || (sent[0] == Typing && AdmissibleAfterTyping(sent[1..]))
  }

  predicate AdmissibleAfterTyping(rest: seq<Event>) {
    || rest == []
    || (|rest| == 1 && (rest[0].ErrorReply? || rest[0].TextReply?))
    || (|rest| == 2 && rest[0].TextReply? && rest[1].ErrorReply?)
    || (|rest| == 2 && rest[0].TextReply? && rest[1] == AudioReply(VoiceFile))
  }

  /** The body of the `try` block (lines 39-44) on the trimmed text. */
  function TryBlock(text: string, svc: Services): (a: Attempt)
    ensures AdmissibleAfterTyping(a.sent)
    ensures forall k :: 0 <= k < |a.sent| ==> !a.sent[k].ErrorReply?
    ensures |a.calls| >= 1 && a.calls[0] == Translate(text, SourceLanguage, TargetLanguage)
  {
    var ask := [Translate(text, SourceLanguage, TargetLanguage)];
    var a := Replying(TranslateToThai(text, svc.translate), ask, svc);
    assert a.calls[0] == a.calls[..1][0];
    a
  }

  /** The `try` block from the translator's answer on (lines 39-44): its
      exception, or the failure to send the reply, goes to the `except`
      clause; otherwise the voice stage follows the delivered reply. */
  function Replying(r: Result<(Option<string>, string)>, calls: seq<Call>, svc: Services): (a: Attempt)
    ensures AdmissibleAfterTyping(a.sent)
    ensures forall k :: 0 <= k < |a.sent| ==> !a.sent[k].ErrorReply?
    ensures |calls| <= |a.calls| && a.calls[..|calls|] == calls
    ensures r.Raised? ==> a == Attempt([], calls, Some(r.error))
    ensures a.sent != [] <==> r.Ok? && svc.textReply.Ok?
    ensures a.sent != [] ==> a.sent[0] == TextReply(r.value.1)
  {
    if r.Raised? then Attempt([], calls, Some(r.error))
    else if svc.textReply.Raised? then Attempt([], calls, Some(svc.textReply.error))
    else VoiceStage(r.value.0, r.value.1, calls, svc)
  }

  /** The rest of the `try` block once the reply went out (lines 42-44):
      `make_tts` on the translation and, if it named a file, the audio. */
  function VoiceStage(thai: Option<string>, formatted: string, calls: seq<Call>, svc: Services): (a: Attempt)
    ensures |calls| <= |a.calls| && a.calls[..|calls|] == calls
    ensures a.sent == [TextReply(formatted)] || a.sent == [TextReply(formatted), AudioReply(VoiceFile)]
    ensures a.raised.Some? ==> a.sent == [TextReply(formatted)]
  {
    var tts := MakeTts(thai, svc.synthesize);
    var calls := calls + SpeechCalls(tts);
    match tts.result
    case Raised(e) => Attempt([TextReply(formatted)], calls, Some(e))
    case Ok(voice) =>
      if OrEmpty(voice) == "" then Attempt([TextReply(formatted)], calls, None)
      else if svc.audioReply.Raised? then Attempt([TextReply(formatted)], calls, Some(svc.audioReply.error))
      else Attempt([TextReply(formatted), AudioReply(voice.value)], calls, None)
  }

  /** After the typing action and the `try` block: the `except` clause
      (line 46) sends one error reply for whatever the block raised, and if
      that send fails its exception leaves the handler. */
  function Settle(a: Attempt, svc: Services): (h: Handling)
    ensures h.calls == a.calls
    ensures |h.sent| == 1 + |a.sent| + (if a.raised.Some? && svc.errorReply.Ok? then 1 else 0)
    ensures h.sent[..1 + |a.sent|] == [Typing] + a.sent
    ensures h.escaped.Some? <==> a.raised.Some? && svc.errorReply.Raised?
    ensures h.escaped.Some? ==> h.escaped.value == svc.errorReply.error
    ensures a.raised.Some? && svc.errorReply.Ok? ==> h.sent[|h.sent| - 1] == ErrorReply(ErrorText(a.raised.value))
  {
    match a.raised
    case None => Handling([Typing] + a.sent, a.calls, None)
    case Some(e) =>
      if svc.errorReply.Raised? then Handling([Typing] + a.sent, a.calls, Some(svc.errorReply.error))
      else Handling([Typing] + a.sent + [ErrorReply(ErrorText(e))], a.calls, None)
  }

  /** `handle_message`: ignore a blank message; otherwise show the typing
      action (outside the `try`, so its failure escapes), run the `try` block,
      and report whatever it raised with one error reply (whose own failure
      escapes). */
  function HandleMessage(text: Option<string>, svc: Services): (h: Handling)
    ensures Admissible(h.sent)
    ensures Blank(text) <==> h.sent == [] && h.calls == [] && h.escaped.None?
  {
    StripEmptyIffBlank(OrEmpty(text));
    var t := Source(text);
    if t == "" then Handling([], [], None)
    else if svc.typing.Raised? then Handling([], [], Some(svc.typing.error))
    else Settle(TryBlock(t, svc), svc)
  }
}

=== FILE: handler_laws.dfy ===
/** Properties of `handle_message` (bot.py lines 32-46), each relating the
    handler's trace to the outcomes of the calls it makes. */
module HandlerLaws {
  import opened Outcomes
  import opened PyStrings
  import opened Translation
  import opened Speech
  import opened Handler

  /** The reply text the handler sends after a successful translation. */
  function ReplyFor(text: Option<string>, thai: Option<string>): string {
    Format(Render(thai), Source(text))
  }

  /** The typing action comes first and sits outside the `try`: if it fails,
      its exception leaves the handler and nothing else happens. */
  lemma TypingFailureEscapes(text: Option<string>, svc: Services)
    requires !Blank(text) && svc.typing.Raised?
    ensures HandleMessage(text, svc) == Handling([], [], Some(svc.typing.error))
  {
    StripEmptyIffBlank(OrEmpty(text));
  }

  /** Once the typing action is delivered, it is the first event and the
      only typing action, and the translator is asked, first, for the English
      to Thai translation of the trimmed message. */
  lemma TypingThenTranslate(text: Option<string>, svc: Services)
    requires !Blank(text) && svc.typing.Ok?
    ensures var h := HandleMessage(text, svc);
      && |h.sent| >= 1 && h.sent[0] == Typing
      && (forall k :: 0 < k < |h.sent| ==> h.sent[k] != Typing)
      && |h.calls| >= 1 && h.calls[0] == Translate(Source(text), SourceLanguage, TargetLanguage)
  {
    EnterTry(text, svc);
    AdmissibleShapes(HandleMessage(text, svc).sent);
  }

  /** Past the blank check and the typing action, the handler is the `try`
      block followed by the `except` clause. */
  lemma EnterTry(text: Option<string>, svc: Services)
    requires !Blank(text) && svc.typing.Ok?
    ensures HandleMessage(text, svc) == Settle(TryBlock(Source(text), svc), svc)
  {
    StripEmptyIffBlank(OrEmpty(text));
  }

  /** A translation that succeeded and whose reply went out leaves the voice
      stage as the rest of the `try` block. */
  lemma TryBlockReplied(t: string, svc: Services)
    requires svc.translate(t).Ok? && svc.textReply.Ok?
    ensures var thai := svc.translate(t).value;
      TryBlock(t, svc) == VoiceStage(thai, Format(Render(thai), t), [Translate(t, SourceLanguage, TargetLanguage)], svc)
  {
  }

  /** After a successful translation whose reply is delivered, the second
      event is the reply built from the translation and the trimmed message,
      and reading it back yields exactly those two (when the translation is a
      single line): the Thai line comes first, the English line second. */
  lemma ReplyLayout(text: Option<string>, svc: Services)
    requires !Blank(text) && svc.typing.Ok?
    requires svc.translate(Source(text)).Ok? && svc.textReply.Ok?
    ensures var h := HandleMessage(text, svc);
      var thai := svc.translate(Source(text)).value;
      && |h.sent| >= 2
      && h.sent[1] == TextReply(ReplyFor(text, thai))
      && ('\n' !in Render(thai) ==> Parse(h.sent[1].body) == Some((Render(thai), Source(text))))
  {
    var h := HandleMessage(text, svc);
    var thai := svc.translate(Source(text)).value;
    var reply := ReplyFor(text, thai);
    ReachVoiceStage(text, svc);
    assert h.sent[1] == TextReply(reply);
    if '\n' !in Render(thai) {
      ParseFormat(Render(thai), Source(text));
      assert Parse(reply) == Some((Render(thai), Source(text)));
    }
  }

  /** The English line of the reply is the message with exactly its
      surrounding whitespace removed: a non-empty slice of the message with
      whitespace only around it and none at its ends. */
  lemma SourceIsTrimmedMessage(text: Option<string>)
    requires !Blank(text)
    ensures var s := OrEmpty(text);
      && Source(text) != []
      && StrippedAt(s, Leading(s), Leading(s) + |Source(text)|)
      && Source(text) == s[Leading(s)..Leading(s) + |Source(text)|]
  {
    StripEmptyIffBlank(OrEmpty(text));
    StripSound(OrEmpty(text));
  }

  /** When translation fails, nothing but one error reply follows the typing
      action: no text reply, no audio, and the synthesizer is never asked.
      If that error reply cannot be sent either, its exception escapes. */
  lemma TranslationFailureReply(text: Option<string>, svc: Services)
    requires !Blank(text) && svc.typing.Ok?
    requires svc.translate(Source(text)).Raised?
    ensures var h := HandleMessage(text, svc);
      var e := svc.translate(Source(text)).error;
      && h.calls == [Translate(Source(text), SourceLanguage, TargetLanguage)]
      && (svc.errorReply.Ok? ==> h == Handling([Typing, ErrorReply(ErrorText(e))], h.calls, None))
      && (svc.errorReply.Raised? ==> h == Handling([Typing], h.calls, Some(svc.errorReply.error)))
  {
    StripEmptyIffBlank(OrEmpty(text));
  }

  /** When the reply itself cannot be sent, the handler behaves as on a
      failed translation: one error reply, no audio, no synthesis. */
  lemma ReplyFailureReply(text: Option<string>, svc: Services)
    requires !Blank(text) && svc.typing.Ok?
    requires svc.translate(Source(text)).Ok? && svc.textReply.Raised?
    ensures var h := HandleMessage(text, svc);
      && h.calls == [Translate(Source(text), SourceLanguage, TargetLanguage)]
      && (svc.errorReply.Ok? ==> h.sent == [Typing, ErrorReply(ErrorText(svc.textReply.error))] && h.escaped.None?)
      && (svc.errorReply.Raised? ==> h.sent == [Typing] && h.escaped == Some(svc.errorReply.error))
  {
    StripEmptyIffBlank(OrEmpty(text));
  }

  /** A translation that is empty or whitespace only (or `None`) still has
      its reply sent, but no audio follows and the synthesizer is not asked. */
  lemma BlankTranslationTextOnly(text: Option<string>, svc: Services)
    requires !Blank(text) && svc.typing.Ok?
    requires svc.translate(Source(text)).Ok? && svc.textReply.Ok?
    requires AllSpace(OrEmpty(svc.translate(Source(text)).value))
    ensures var h := HandleMessage(text, svc);
      var thai := svc.translate(Source(text)).value;
      h == Handling([Typing, TextReply(ReplyFor(text, thai))], [Translate(Source(text), SourceLanguage, TargetLanguage)], None)
  {
    StripEmptyIffBlank(OrEmpty(text));
  }

  /** A non-blank translation whose reply was delivered is handed, trimmed,
      to the synthesizer in Thai; on success the fixed voice file follows the
      reply as the last event. */
  lemma SpokenTranslationSendsVoice(text: Option<string>, svc: Services)
    requires !Blank(text) && svc.typing.Ok?
    requires svc.translate(Source(text)).Ok? && svc.textReply.Ok?
    requires !AllSpace(OrEmpty(svc.translate(Source(text)).value))
    ensures var h := HandleMessage(text, svc);
      var thai := svc.translate(Source(text)).value;
      var spoken := Strip(OrEmpty(thai));
      && h.calls == [Translate(Source(text), SourceLanguage, TargetLanguage), Synthesize(spoken, VoiceLanguage)]
      && (svc.synthesize(spoken).Ok? && svc.audioReply.Ok? ==>
            h == Handling([Typing, TextReply(ReplyFor(text, thai)), AudioReply(VoiceFile)], h.calls, None))
  {
    var thai := svc.translate(Source(text)).value;
    var reply := ReplyFor(text, thai);
    var spoken := Strip(OrEmpty(thai));
    var ask := [Translate(Source(text), SourceLanguage, TargetLanguage)];
    var a := VoiceStage(thai, reply, ask, svc);
    ReachVoiceStage(text, svc);
    SpokenVoiceStage(thai, reply, ask, svc);
    assert a.calls == [Translate(Source(text), SourceLanguage, TargetLanguage), Synthesize(spoken, VoiceLanguage)];
    if svc.synthesize(spoken).Ok? && svc.audioReply.Ok? {
      DeliveredAfterReply(reply, a.calls, svc);
    }
  }

  /** The `except` clause on a `try` block that delivered the reply and the
      voice file without raising. */
  lemma DeliveredAfterReply(reply: string, calls: seq<Call>, svc: Services)
    ensures Settle(Attempt([TextReply(reply), AudioReply(VoiceFile)], calls, None), svc)
         == Handling([Typing, TextReply(reply), AudioReply(VoiceFile)], calls, None)
  {
    assert [Typing] + [TextReply(reply), AudioReply(VoiceFile)] == [Typing, TextReply(reply), AudioReply(VoiceFile)];
  }

  /** A failure after the reply was delivered (in synthesis or in sending the
      audio) keeps the reply in the trace and appends exactly one error reply
      carrying that failure; no audio is delivered. */
  lemma LateFailureKeepsReply(text: Option<string>, svc: Services)
    requires !Blank(text) && svc.typing.Ok?
    requires svc.translate(Source(text)).Ok? && svc.textReply.Ok?
    requires !AllSpace(OrEmpty(svc.translate(Source(text)).value))
    requires svc.errorReply.Ok?
    ensures var h := HandleMessage(text, svc);
      var thai := svc.translate(Source(text)).value;
      var spoken := Strip(OrEmpty(thai));
      var failure := if svc.synthesize(spoken).Raised? then svc.synthesize(spoken) else svc.audioReply;
      failure.Raised? ==>
        h == Handling([Typing, TextReply(ReplyFor(text, thai)), ErrorReply(ErrorText(failure.error))], h.calls, None)
  {
    var thai := svc.translate(Source(text)).value;
    var reply := ReplyFor(text, thai);
    var spoken := Strip(OrEmpty(thai));
    var ask := [Translate(Source(text), SourceLanguage, TargetLanguage)];
    var a := VoiceStage(thai, reply, ask, svc);
    ReachVoiceStage(text, svc);
    SpokenVoiceStage(thai, reply, ask, svc);
    if svc.synthesize(spoken).Raised? {
      ReportedAfterReply(reply, a.calls, svc.synthesize(spoken).error, svc);
    } else if svc.audioReply.Raised? {
      ReportedAfterReply(reply, a.calls, svc.audioReply.error, svc);
    }
  }

  /** The `except` clause on a failure raised after the reply went out: the
      error reply follows the reply, or the error reply's own failure
      escapes. */
  lemma ReportedAfterReply(reply: string, calls: seq<Call>, e: Error, svc: Services)
    ensures var h := Settle(Attempt([TextReply(reply)], calls, Some(e)), svc);
      && (svc.errorReply.Ok? ==> h == Handling([Typing, TextReply(reply), ErrorReply(ErrorText(e))], calls, None))
      && (svc.errorReply.Raised? ==> h == Handling([Typing, TextReply(reply)], calls, Some(svc.errorReply.error)))
  {
    assert [Typing] + [TextReply(reply)] == [Typing, TextReply(reply)];
    assert [Typing] + [TextReply(reply)] + [ErrorReply(ErrorText(e))]
        == [Typing, TextReply(reply), ErrorReply(ErrorText(e))];
  }

  /** Once the typing action, the translation and the reply succeeded, what
      is left of the handler is the voice stage and the `except` clause. */
  lemma ReachVoiceStage(text: Option<string>, svc: Services)
    requires !Blank(text) && svc.typing.Ok?
    requires svc.translate(Source(text)).Ok? && svc.textReply.Ok?
    ensures var thai := svc.translate(Source(text)).value;
      HandleMessage(text, svc)
        == Settle(VoiceStage(thai, ReplyFor(text, thai), [Translate(Source(text), SourceLanguage, TargetLanguage)], svc), svc)
  {
    EnterTry(text, svc);
    TryBlockReplied(Source(text), svc);
  }

  /** The voice stage on a translation that is not blank: one synthesizer
      request for the trimmed translation, then the fixed voice file or the
      first failure. */
  lemma SpokenVoiceStage(thai: Option<string>, reply: string, calls: seq<Call>, svc: Services)
    requires !AllSpace(OrEmpty(thai))
    ensures var a := VoiceStage(thai, reply, calls, svc);
      var spoken := Strip(OrEmpty(thai));
      && a.calls == calls + [Synthesize(spoken, VoiceLanguage)]
      && (svc.synthesize(spoken).Raised? ==> a == Attempt([TextReply(reply)], a.calls, Some(svc.synthesize(spoken).error)))
      && (svc.synthesize(spoken).Ok? && svc.audioReply.Raised? ==>
            a == Attempt([TextReply(reply)], a.calls, Some(svc.audioReply.error)))
      && (svc.synthesize(spoken).Ok? && svc.audioReply.Ok? ==>
            a == Attempt([TextReply(reply), AudioReply(VoiceFile)], a.calls, None))
  {
    SpokenIsStripped(thai, svc.synthesize);
  }

  /** Every step the handler takes on a non-blank message succeeded: the
      typing action, the translation, the reply and, unless the translation
      is blank, the synthesis and the audio. */
  predicate AllSucceed(text: Option<string>, svc: Services) {
    var tr := svc.translate(Source(text));
    && svc.typing.Ok? && tr.Ok? && svc.textReply.Ok?
    && (AllSpace(OrEmpty(tr.value))
        || (svc.synthesize(Strip(OrEmpty(tr.value))).Ok? && svc.audioReply.Ok?))
  }

  /** Nothing went wrong (no exception escaped and no error reply was sent)
      for a non-blank message exactly when every step succeeded. */
  lemma CleanRunExactlyWhenAllSucceed(text: Option<string>, svc: Services)
    requires !Blank(text)
    ensures var h := HandleMessage(text, svc);
      (h.escaped.None? && forall k :: 0 <= k < |h.sent| ==> !h.sent[k].ErrorReply?) <==> AllSucceed(text, svc)
  {
    StripEmptyIffBlank(OrEmpty(text));
    if svc.typing.Ok? {
      var a := TryBlock(Source(text), svc);
      assert HandleMessage(text, svc) == Settle(a, svc);
      CleanExactlyWhenNothingRaised(a, svc);
      TryBlockRaisesUnlessAllSucceed(Source(text), svc);
    }
  }

  /** The `except` clause leaves a clean run (no error reply, nothing
      escaping) exactly when the `try` block raised nothing. */
  lemma CleanExactlyWhenNothingRaised(a: Attempt, svc: Services)
    requires forall k :: 0 <= k < |a.sent| ==> !a.sent[k].ErrorReply?
    ensures var h := Settle(a, svc);
      (h.escaped.None? && forall k :: 0 <= k < |h.sent| ==> !h.sent[k].ErrorReply?) <==> a.raised.None?
  {
    var h := Settle(a, svc);
    if a.raised.None? {
      assert forall k :: 1 <= k < |h.sent| ==> h.sent[k] == a.sent[k - 1];
    } else if svc.errorReply.Ok? {
      assert h.sent[|h.sent| - 1].ErrorReply?;
    }
  }

  /** The `try` block raises nothing exactly when the translation and the
      reply succeed and, for a non-blank translation, synthesis and the audio
      succeed too. */
  lemma TryBlockRaisesUnlessAllSucceed(t: string, svc: Services)
    ensures var tr := svc.translate(t);
      TryBlock(t, svc).raised.None? <==>
        && tr.Ok? && svc.textReply.Ok?
        && (AllSpace(OrEmpty(tr.value))
            || (svc.synthesize(Strip(OrEmpty(tr.value))).Ok? && svc.audioReply.Ok?))
  {
    var tr := svc.translate(t);
    if tr.Ok? {
      var tts := MakeTts(tr.value, svc.synthesize);
      if tts.spoken.Some? {
        SpokenIsStripped(tr.value, svc.synthesize);
      }
    }
  }

  /** On a clean run the trace is the typing action and the reply, followed
      by the voice file exactly when the translation is not blank. */
  lemma CleanRunTrace(text: Option<string>, svc: Services)
    requires !Blank(text) && AllSucceed(text, svc)
    ensures var h := HandleMessage(text, svc);
      var thai := svc.translate(Source(text)).value;
      && h.escaped.None?
      && (AllSpace(OrEmpty(thai)) ==> h.sent == [Typing, TextReply(ReplyFor(text, thai))])
      && (!AllSpace(OrEmpty(thai)) ==> h.sent == [Typing, TextReply(ReplyFor(text, thai)), AudioReply(VoiceFile)])
  {
    StripEmptyIffBlank(OrEmpty(text));
    var thai := svc.translate(Source(text)).value;
    var r := MakeTts(thai, svc.synthesize);
    if r.spoken.Some? {
      SpokenIsStripped(thai, svc.synthesize);
    }
  }

  /** Every trace has at most one event of each kind, the audio (if any)
      directly follows the reply, and every audio event names the fixed
      voice file. */
  lemma AtMostOneOfEach(text: Option<string>, svc: Services)
    ensures var s := HandleMessage(text, svc).sent;
      && (forall i, j :: 0 <= i < j < |s| ==> s[i] != Typing || s[j] != Typing)
      && (forall i, j :: 0 <= i < j < |s| ==> !s[i].TextReply? || !s[j].TextReply?)
      && (forall i, j :: 0 <= i < j < |s| ==> !s[i].AudioReply? || !s[j].AudioReply?)
      && (forall i, j :: 0 <= i < j < |s| ==> !s[i].ErrorReply? || !s[j].ErrorReply?)
      && (forall i :: 0 <= i < |s| && s[i].AudioReply? ==> 0 < i && s[i - 1].TextReply? && s[i].file == VoiceFile)
  {
    var s := HandleMessage(text, svc).sent;
    AdmissibleShapes(s);
  }

  /** The shape facts behind `AtMostOneOfEach`, read off the trace grammar. */
  lemma AdmissibleShapes(s: seq<Event>)
    requires Admissible(s)
    ensures forall i, j :: 0 <= i < j < |s| ==> s[i] != Typing || s[j] != Typing
    ensures forall i, j :: 0 <= i < j < |s| ==> !s[i].TextReply? || !s[j].TextReply?
    ensures forall i, j :: 0 <= i < j < |s| ==> !s[i].AudioReply? || !s[j].AudioReply?
    ensures forall i, j :: 0 <= i < j < |s| ==> !s[i].ErrorReply? || !s[j].ErrorReply?
    ensures forall i :: 0 <= i < |s| && s[i].AudioReply? ==> 0 < i && s[i - 1].TextReply? && s[i].file == VoiceFile
  {
    if s != [] {
      var rest := s[1..];
      assert forall k :: 1 <= k < |s| ==> s[k] == rest[k - 1];
    }
  }

  /** An error reply is sent exactly when some step inside the `try` raised
      and the error reply itself went out; it then reports that exception. */
  lemma ErrorReplyReportsTheFailure(text: Option<string>, svc: Services)
    requires !Blank(text) && svc.typing.Ok?
    ensures var h := HandleMessage(text, svc);
      var a := TryBlock(Source(text), svc);
      && ((exists k :: 0 <= k < |h.sent| && h.sent[k].ErrorReply?) <==> (a.raised.Some? && svc.errorReply.Ok?))
      && (a.raised.Some? && svc.errorReply.Ok? ==> h.sent[|h.sent| - 1] == ErrorReply(ErrorText(a.raised.value)))
  {
    StripEmptyIffBlank(OrEmpty(text));
    var h := HandleMessage(text, svc);
    var a := TryBlock(Source(text), svc);
    if a.raised.Some? && svc.errorReply.Ok? {
      assert h.sent[|h.sent| - 1].ErrorReply?;
    }
  }
}

=== FILE: handler_steps.dfy ===
/** `handle_message` (bot.py lines 32-46) as a small-step machine: one step
    per statement of the handler body, with `make_tts` (lines 17-24)
    inlined. It is an independent reading of the same code, and
    `RunAgrees` proves it produces exactly what `Handler.HandleMessage`
    produces on every message and every combination of outcomes.
 */
module HandlerSteps {
  import opened Outcomes
  import opened PyStrings
  import opened Translation
  import opened Speech
  import opened Handler
  import opened HandlerLaws

  /** Where the handler is. */
  datatype Point =
    | Entry                                  // line 33: read and trim the text
    | ShowTyping(text: string)               // line 36: send the typing action
    | Translating(text: string)              // line 39: call the translator
    | Replying(thai: Option<string>, reply: string) // line 40: send the reply
    | Speaking(thai: Option<string>)         // line 42: make_tts
    | Checking(voice: Option<string>)        // line 43: `if voice:`
    | SendingVoice(file: string)             // line 44: send the audio
    | Excepting(error: Error)                // line 46: report the exception
    | Exit

  /** The machine: where it is and what it has done so far. */
  datatype Machine = Machine(at: Point, sent: seq<Event>, calls: seq<Call>, escaped: Option<Error>)

  /** How many steps at most are left from a point. */
  function Remaining(p: Point): nat {
    match p
    case Entry => 8
    case ShowTyping(_) => 7
    case Translating(_) => 6
    case Replying(_, _) => 5
    case Speaking(_) => 4
    case Checking(_) => 3
    case SendingVoice(_) => 2
    case Excepting(_) => 1
    case Exit => 0
  }

  /** One step of the handler. */
  function Step(m: Machine, text: Option<string>, svc: Services): (m': Machine)
    requires !m.at.Exit?
    ensures Remaining(m'.at) < Remaining(m.at)
    ensures |m.sent| <= |m'.sent| && m'.sent[..|m.sent|] == m.sent
    ensures |m.calls| <= |m'.calls| && m'.calls[..|m.calls|] == m.calls
  {
    match m.at
    case Entry =>
      var t := Strip(OrEmpty(text));
      if t == "" then m.(at := Exit) else m.(at := ShowTyping(t))
    case ShowTyping(t) =>
      if svc.typing.Raised? then m.(at := Exit, escaped := Some(svc.typing.error))
      else m.(at := Translating(t), sent := m.sent + [Typing])
    case Translating(t) =>
      var m1 := m.(calls := m.calls + [Translate(t, "en", "th")]);
      var tr := svc.translate(t);
      if tr.Raised? then m1.(at := Excepting(tr.error))
      else m1.(at := Replying(tr.value, ThaiTag + (Render(tr.value) + ("\n" + (SourceTag + t)))))
    case Replying(thai, reply) =>
      if svc.textReply.Raised? then m.(at := Excepting(svc.textReply.error))
      else m.(at := Speaking(thai), sent := m.sent + [TextReply(reply)])
    case Speaking(thai) =>
      var s := Strip(OrEmpty(thai));
      if s == "" then m.(at := Checking(None))
      else
        var m1 := m.(calls := m.calls + [Synthesize(s, "th")]);
        var spoken := svc.synthesize(s);
        if spoken.Raised? then m1.(at := Excepting(spoken.error))
        else m1.(at := Checking(Some("thai_voice.mp3")))
    case Checking(voice) =>
      if voice.Some? && voice.value != "" then m.(at := SendingVoice(voice.value)) else m.(at := Exit)
    case SendingVoice(file) =>
      if svc.audioReply.Raised? then m.(at := Excepting(svc.audioReply.error))
      else m.(at := Exit, sent := m.sent + [AudioReply(file)])
    case Excepting(e) =>
      if svc.errorReply.Raised? then m.(at := Exit, escaped := Some(svc.errorReply.error))
      else m.(at := Exit, sent := m.sent + [ErrorReply(ErrorText(e))])
  }

  /** Step until the handler returns. */
  function Run(m: Machine, text: Option<string>, svc: Services): (m': Machine)
    ensures m'.at.Exit?
    ensures |m.sent| <= |m'.sent| && m'.sent[..|m.sent|] == m.sent
    decreases Remaining(m.at)
  {
    if m.at.Exit? then m else Run(Step(m, text, svc), text, svc)
  }

  /** Where every message starts. */
  const Initial: Machine := Machine(Entry, [], [], None)

  /** What a finished machine leaves behind. */
  function Outcome(m: Machine): Handling {
    Handling(m.sent, m.calls, m.escaped)
  }

  /** The machine and the compositional model agree on every message. */
  lemma RunAgrees(text: Option<string>, svc: Services)
    ensures Outcome(Run(Initial, text, svc)) == HandleMessage(text, svc)
  {
    var t := Strip(OrEmpty(text));
    if t != "" && svc.typing.Ok? {
      var m2 := Machine(Translating(t), [Typing], [], None);
      assert Run(Initial, text, svc) == Run(m2, text, svc);
      FromTranslating(t, text, svc);
    }
  }

  /** From the start of the `try` block (line 39) to the end of the handler. */
  lemma FromTranslating(t: string, text: Option<string>, svc: Services)
    ensures Outcome(Run(Machine(Translating(t), [Typing], [], None), text, svc)) == Settle(TryBlock(t, svc), svc)
  {
    var m0 := Machine(Translating(t), [Typing], [], None);
    var ask := [Translate(t, "en", "th")];
    var tr := svc.translate(t);
    assert Run(m0, text, svc) == Run(Step(m0, text, svc), text, svc);
    if tr.Raised? {
      FromExcepting(tr.error, [Typing], ask, text, svc);
    } else {
      FromReplying(tr.value, Format(Render(tr.value), t), ask, text, svc);
    }
  }

  /** From sending the reply (line 40) to the end of the handler. */
  lemma FromReplying(thai: Option<string>, reply: string, calls: seq<Call>, text: Option<string>, svc: Services)
    ensures Outcome(Run(Machine(Replying(thai, reply), [Typing], calls, None), text, svc))
         == Settle(if svc.textReply.Raised? then Attempt([], calls, Some(svc.textReply.error))
                   else VoiceStage(thai, reply, calls, svc), svc)
  {
    var m0 := Machine(Replying(thai, reply), [Typing], calls, None);
    assert Run(m0, text, svc) == Run(Step(m0, text, svc), text, svc);
    if svc.textReply.Raised? {
      FromExcepting(svc.textReply.error, [Typing], calls, text, svc);
    } else {
      assert [Typing] + [TextReply(reply)] == [Typing, TextReply(reply)];
      FromSpeaking(thai, reply, calls, text, svc);
    }
  }

  /** From `make_tts` (line 42) to the end of the handler. */
  lemma FromSpeaking(thai: Option<string>, reply: string, calls: seq<Call>, text: Option<string>, svc: Services)
    ensures Outcome(Run(Machine(Speaking(thai), [Typing, TextReply(reply)], calls, None), text, svc))
         == Settle(VoiceStage(thai, reply, calls, svc), svc)
  {
    var sent := [Typing, TextReply(reply)];
    var m0 := Machine(Speaking(thai), sent, calls, None);
    var m1 := Step(m0, text, svc);
    assert Run(m0, text, svc) == Run(m1, text, svc);
    StripEmptyIffBlank(OrEmpty(thai));
    if Strip(OrEmpty(thai)) == "" {
      assert m1 == Machine(Checking(None), sent, calls, None);
      assert Run(m1, text, svc) == Step(m1, text, svc);
    } else {
      FromSynthesis(thai, reply, calls, text, svc);
    }
  }

  /** From `make_tts` on a translation that is not blank: one synthesizer
      request, then the audio or the `except` clause. */
  lemma FromSynthesis(thai: Option<string>, reply: string, calls: seq<Call>, text: Option<string>, svc: Services)
    requires Strip(OrEmpty(thai)) != ""
    ensures var m0 := Machine(Speaking(thai), [Typing, TextReply(reply)], calls, None);
      Outcome(Run(Step(m0, text, svc), text, svc)) == Settle(VoiceStage(thai, reply, calls, svc), svc)
  {
    var sent := [Typing, TextReply(reply)];
    var s := Strip(OrEmpty(thai));
    var calls' := calls + [Synthesize(s, "th")];
    StripEmptyIffBlank(OrEmpty(thai));
    SpokenVoiceStage(thai, reply, calls, svc);
    SynthesisStep(thai, sent, calls, text, svc);
    if svc.synthesize(s).Raised? {
      FromExcepting(svc.synthesize(s).error, sent, calls', text, svc);
      ReportedAfterReply(reply, calls', svc.synthesize(s).error, svc);
    } else {
      FromChecking(VoiceFile, sent, calls', text, svc);
      if svc.audioReply.Raised? {
        FromExcepting(svc.audioReply.error, sent, calls', text, svc);
        ReportedAfterReply(reply, calls', svc.audioReply.error, svc);
      } else {
        assert sent + [AudioReply(VoiceFile)] == [Typing, TextReply(reply), AudioReply(VoiceFile)];
        DeliveredAfterReply(reply, calls', svc);
      }
    }
  }

  /** The `make_tts` step on a text that is not blank: the synthesizer is
      asked, then either its exception goes to the `except` clause or the
      fixed file name goes to `if voice:`. */
  lemma SynthesisStep(thai: Option<string>, sent: seq<Event>, calls: seq<Call>, text: Option<string>, svc: Services)
    requires Strip(OrEmpty(thai)) != ""
    ensures var s := Strip(OrEmpty(thai));
      var m1 := Step(Machine(Speaking(thai), sent, calls, None), text, svc);
      && (svc.synthesize(s).Raised? ==> m1 == Machine(Excepting(svc.synthesize(s).error), sent, calls + [Synthesize(s, "th")], None))
      && (svc.synthesize(s).Ok? ==> m1 == Machine(Checking(Some(VoiceFile)), sent, calls + [Synthesize(s, "th")], None))
  {
  }

  /** From `if voice:` (line 43) with a file name: the audio is sent, or its
      failure goes to the `except` clause. */
  lemma FromChecking(file: string, sent: seq<Event>, calls: seq<Call>, text: Option<string>, svc: Services)
    requires file != ""
    ensures var m := Run(Machine(Checking(Some(file)), sent, calls, None), text, svc);
      && (svc.audioReply.Ok? ==> m == Machine(Exit, sent + [AudioReply(file)], calls, None))
      && (svc.audioReply.Raised? ==>
            m == Run(Machine(Excepting(svc.audioReply.error), sent, calls, None), text, svc))
  {
    var m0 := Machine(Checking(Some(file)), sent, calls, None);
    var m1 := Machine(SendingVoice(file), sent, calls, None);
    assert Run(m0, text, svc) == Run(m1, text, svc);
    assert Run(m1, text, svc) == Run(Step(m1, text, svc), text, svc);
  }

  /** The `except` clause: one error reply, or the escape of its failure. */
  lemma FromExcepting(e: Error, sent: seq<Event>, calls: seq<Call>, text: Option<string>, svc: Services)
    ensures var m := Run(Machine(Excepting(e), sent, calls, None), text, svc);
      && m.calls == calls
      && (svc.errorReply.Ok? ==> m.sent == sent + [ErrorReply(ErrorText(e))] && m.escaped.None?)
      && (svc.errorReply.Raised? ==> m.sent == sent && m.escaped == Some(svc.errorReply.error))
  {
    var m0 := Machine(Excepting(e), sent, calls, None);
    assert Run(m0, text, svc) == Run(Step(m0, text, svc), text, svc);
  }
}

=== FILE: outcomes.dfy ===
/** Failure-carrying values shared by the whole model.

    The bot's external collaborators (the translator, the speech synthesizer and
    the messaging client) either return a value or raise a Python exception.
    `Result` models that choice; the exception's message is kept as an opaque
    `Error`, standing for `str(e)`.
 */
module Outcomes {

  /** An optional value; `None` stands for Python's `None`. */
  datatype Option<+T> = None | Some(value: T)

  /** The payload of a raised exception: `detail` stands for `str(e)`. */
  datatype Error = Error(detail: string)

  /** Either the call returned `value`, or it raised `error`. */
  datatype Result<+T> = Ok(value: T) | Raised(error: Error)

  /** Python's `x or ""` on a value of type `str | None`:
      `None` and the empty string both give the empty string. */
  function OrEmpty(x: Option<string>): string {
    match x
    case None => ""
    case Some(v) => v
  }

  /** How an f-string renders a value of type `str | None`: `None` becomes the
      four characters "None", a string is inserted unchanged. */
  function Render(x: Option<string>): string {
    match x
    case None => "None"
    case Some(v) => v
  }
}

=== FILE: speech.dfy ===
/** `make_tts` (bot.py lines 17-24): turn the Thai translation into a voice
    file, unless there is nothing left of it once trimmed.

    The speech synthesizer (creating the `gTTS` object and saving the mp3) is an
    oracle `synthesize` that either succeeds or raises; what the model keeps is
    the text the synthesizer was asked to speak and the file name returned.
 */
module Speech {
  import opened Outcomes
  import opened PyStrings

  /** The fixed name every voice file is saved under. */
  const VoiceFile: string := "thai_voice.mp3"

  /** The language the synthesizer is asked to speak. */
  const VoiceLanguage: string := "th"

  /** One run of `make_tts`: the text handed to the synthesizer (`None` when it
      was not called) and what the function returned or raised. */
  datatype Tts = Tts(spoken: Option<string>, result: Result<Option<string>>)

  /** `make_tts`: `None` and whitespace-only text give no file without calling
      the synthesizer; otherwise the trimmed text is synthesized and, unless
      that raises, the fixed file name is returned. */
  function MakeTts(th: Option<string>, synthesize: string -> Result<()>): (r: Tts)
    ensures r.result == Ok(None) <==> AllSpace(OrEmpty(th))
    ensures r.spoken.None? <==> AllSpace(OrEmpty(th))
    ensures r.spoken.Some? ==> r.spoken.value != [] && Trimmed(r.spoken.value)
    ensures r.spoken.Some? ==> StrippedAt(OrEmpty(th), Leading(OrEmpty(th)), Leading(OrEmpty(th)) + |r.spoken.value|)
    ensures r.spoken.Some? ==> r.spoken.value == OrEmpty(th)[Leading(OrEmpty(th))..Leading(OrEmpty(th)) + |r.spoken.value|]
    ensures r.result.Raised? <==> r.spoken.Some? && synthesize(r.spoken.value).Raised?
    ensures r.result.Raised? ==> r.result.error == synthesize(r.spoken.value).error
    ensures r.result.Ok? && r.result.value.Some? ==> r.result.value.value == VoiceFile
  {
    var text := Strip(OrEmpty(th));
    StripEmptyIffBlank(OrEmpty(th));
    StripSound(OrEmpty(th));
    StripIdempotent(OrEmpty(th));
    if text == [] then Tts(None, Ok(None))
    else match synthesize(text)
      case Raised(e) => Tts(Some(text), Raised(e))
      case Ok(_) => Tts(Some(text), Ok(Some(VoiceFile)))
  }

  /** The synthesizer is asked to speak exactly the trimmed translation: the
      text it receives is what `strip()` leaves of the Thai text. */
  lemma SpokenIsStripped(th: Option<string>, synthesize: string -> Result<()>)
    requires MakeTts(th, synthesize).spoken.Some?
    ensures MakeTts(th, synthesize).spoken.value == Strip(OrEmpty(th))
  {
    var s := OrEmpty(th);
    var r := MakeTts(th, synthesize);
    StripUnique(s, Leading(s), Leading(s) + |r.spoken.value|);
    StripSound(s);
  }
}

=== FILE: strip.dfy ===
/** Python's `str.strip()` with no argument, as used on the inbound message
    (bot.py line 33) and on the Thai text before synthesis (bot.py line 18).

    `strip()` removes every leading and every trailing character for which
    `str.isspace()` holds. The functional definition `Strip` is paired with an
    index-based `StripIndices` method that scans from both ends, and with a
    declarative characterisation (`StrippedAt`) that `Strip` is proved to be the
    unique solution of.
 */
module PyStrings {

  /** `str.isspace()` on one code point: the characters whose Unicode
      bidirectional class is WS, B or S, or whose category is Zs. */
  predicate IsSpace(c: char) {
    || ('\t' <= c <= '\r')                // tab, line feed, vertical tab, form feed, carriage return
    || ('\U{1C}' <= c <= '\U{1F}')        // file, group, record and unit separators
    || c == ' '
    || c == '\U{85}'                      // next line
    || c == '\U{A0}'                      // no-break space
    || c == '\U{1680}'                    // ogham space mark
    || ('\U{2000}' <= c <= '\U{200A}')    // en quad .. hair space
    || c == '\U{2028}' || c == '\U{2029}' // line and paragraph separators
    || c == '\U{202F}' || c == '\U{205F}' || c == '\U{3000}'
  }

  /** Every character of `s` is whitespace (true of the empty string). */
  predicate AllSpace(s: string) {
    forall k :: 0 <= k < |s| ==> IsSpace(s[k])
  }

  /** `s` neither starts nor ends with whitespace. */
  predicate Trimmed(s: string) {
    s == [] || (!IsSpace(s[0]) && !IsSpace(s[|s| - 1]))
  }

  /** `s[i..j]` is what is left of `s` after removing whitespace from both ends:
      everything outside it is whitespace and it has none at either end. */
  predicate StrippedAt(s: string, i: int, j: int) {
    && 0 <= i <= j <= |s|
    && AllSpace(s[..i])
    && AllSpace(s[j..])
    && Trimmed(s[i..j])
  }

  /** `str.lstrip()`. */
  function TrimStart(s: string): (r: string)
    ensures |r| <= |s|
    decreases |s|
  {
    if |s| > 0 && IsSpace(s[0]) then TrimStart(s[1..]) else s
  }

  /** `str.rstrip()`. */
  function TrimEnd(s: string): (r: string)
    ensures |r| <= |s|
    decreases |s|
  {
    if |s| > 0 && IsSpace(s[|s| - 1]) then TrimEnd(s[..|s| - 1]) else s
  }

  /** `str.strip()`. */
  function Strip(s: string): string {
    TrimEnd(TrimStart(s))
  }

  /** The number of whitespace characters `strip()` removes from the front. */
  function Leading(s: string): nat {
    |s| - |TrimStart(s)|
  }

  /** `lstrip()` returns a suffix of `s` preceded only by whitespace, and
      that suffix does not start with whitespace. */
  lemma {:induction false} TrimStartShape(s: string)
    ensures |TrimStart(s)| <= |s|
    ensures TrimStart(s) == s[|s| - |TrimStart(s)|..]
    ensures AllSpace(s[..|s| - |TrimStart(s)|])
    ensures TrimStart(s) == [] || !IsSpace(TrimStart(s)[0])
    decreases |s|
  {
    if |s| > 0 && IsSpace(s[0]) {
      TrimStartShape(s[1..]);
      var k := |s| - |TrimStart(s)|;
      assert s[1..][k - 1..] == s[k..];
      assert forall m :: 0 < m < k ==> s[..k][m] == s[1..][..k - 1][m - 1];
    }
  }

  /** `rstrip()` returns a prefix of `s` followed only by whitespace, and
      that prefix does not end with whitespace. */
  lemma {:induction false} TrimEndShape(s: string)
    ensures |TrimEnd(s)| <= |s|
    ensures TrimEnd(s) == s[..|TrimEnd(s)|]
    ensures AllSpace(s[|TrimEnd(s)|..])
    ensures TrimEnd(s) == [] || !IsSpace(TrimEnd(s)[|TrimEnd(s)| - 1])
    decreases |s|
  {
    if |s| > 0 && IsSpace(s[|s| - 1]) {
      var p := s[..|s| - 1];
      TrimEndShape(p);
      var n := |TrimEnd(s)|;
      assert p[..n] == s[..n];
      assert s[n..] == p[n..] + [s[|s| - 1]];
      AllSpaceSnoc(p[n..], s[|s| - 1]);
    }
  }

  /** Whitespace followed by one more whitespace character is whitespace. */
  lemma AllSpaceSnoc(a: string, c: char)
    requires AllSpace(a) && IsSpace(c)
    ensures AllSpace(a + [c])
  {
    assert forall k :: 0 <= k < |a| ==> (a + [c])[k] == a[k];
  }

  /** A string with no leading whitespace is its own `lstrip()`. */
  lemma TrimStartNoop(s: string)
    requires s == [] || !IsSpace(s[0])
    ensures TrimStart(s) == s
  {
  }

  /** A string with no trailing whitespace is its own `rstrip()`. */
  lemma TrimEndNoop(s: string)
    requires s == [] || !IsSpace(s[|s| - 1])
    ensures TrimEnd(s) == s
  {
  }

  /** `strip()` meets its declarative description: what it returns is the
      slice of `s` starting after the leading whitespace, everything around
      that slice is whitespace, and the slice has no whitespace at either end. */
  lemma {:induction false} StripSound(s: string)
    ensures Leading(s) + |Strip(s)| <= |s|
    ensures Strip(s) == s[Leading(s)..Leading(s) + |Strip(s)|]
    ensures StrippedAt(s, Leading(s), Leading(s) + |Strip(s)|)
  {
    var a := TrimStart(s);
    TrimStartShape(s);
    TrimEndShape(a);
    var i := Leading(s);
    var r := Strip(s);
    assert a == s[i..];
    assert r == a[..|r|];
    assert r == s[i..i + |r|];
    assert s[i + |r|..] == a[|r|..];
    if r != [] {
      assert r[0] == a[0];
    }
  }

  /** The declarative description has exactly one solution: any slice that
      meets it is the result of `strip()`. */
  lemma {:induction false} StripUnique(s: string, i: int, j: int)
    requires StrippedAt(s, i, j)
    ensures s[i..j] == Strip(s)
  {
    StripSound(s);
    var i0 := Leading(s);
    var j0 := i0 + |Strip(s)|;
    if i < j && i0 < j0 {
      SameEdge(s, i, j, i0, j0);
      SameEdge(s, i0, j0, i, j);
    }
  }

  /** Two non-empty solutions of the description start and end at the same
      place (one direction; the caller uses it both ways round). */
  lemma SameEdge(s: string, i: int, j: int, i0: int, j0: int)
    requires StrippedAt(s, i, j) && i < j
    requires StrippedAt(s, i0, j0) && i0 < j0
    ensures i <= i0 && j0 <= j
  {
    assert !IsSpace(s[i0]) by { assert s[i0] == s[i0..j0][0]; }
    assert !IsSpace(s[j0 - 1]) by { assert s[j0 - 1] == s[i0..j0][j0 - i0 - 1]; }
  }

  /** `strip()` returns the empty string exactly when the input is whitespace
      only; this is the test `if not text` and `if not th_text` performs. */
  lemma StripEmptyIffBlank(s: string)
    ensures Strip(s) == [] <==> AllSpace(s)
  {
    StripSound(s);
    if AllSpace(s) {
      assert StrippedAt(s, 0, 0) by {
        assert s[..0] == [] && s[0..] == s;
      }
      StripUnique(s, 0, 0);
    }
  }

  /** `strip()` is idempotent. */
  lemma StripIdempotent(s: string)
    ensures Strip(Strip(s)) == Strip(s)
  {
    StripSound(s);
    var r := Strip(s);
    assert StrippedAt(r, 0, |r|) by {
      assert r[..0] == [] && r[|r|..] == [] && r[0..|r|] == r;
    }
    StripUnique(r, 0, |r|);
  }

  /** The scan `strip()` performs: advance from the front past whitespace,
      then retreat from the back past whitespace without crossing the front. */
  method StripIndices(s: string) returns (i: nat, j: nat)
    ensures i <= j <= |s|
    ensures s[i..j] == Strip(s)
    ensures StrippedAt(s, i, j)
  {
    i := SkipLeading(s);
    j := SkipTrailing(s, i);
    assert Trimmed(s[i..j]) by {
      if i < j {
        assert s[i..j][0] == s[i];
        assert s[i..j][j - i - 1] == s[j - 1];
      }
    }
  }

  /** The forward half of the scan: the index of the first non-space
      character, or `|s|` when there is none. */
  method SkipLeading(s: string) returns (i: nat)
    ensures i <= |s|
    ensures AllSpace(s[..i])
    ensures i < |s| ==> !IsSpace(s[i])
    ensures s[i..] == TrimStart(s)
  {
    i := 0;
    while i < |s| && IsSpace(s[i])
      invariant i <= |s|
      invariant TrimStart(s[i..]) == TrimStart(s)
      invariant AllSpace(s[..i])
    {
      assert s[i..][1..] == s[i + 1..];
      assert s[..i + 1] == s[..i] + [s[i]];
      i := i + 1;
    }
    TrimStartNoop(s[i..]);
  }

  /** The backward half of the scan, which never moves below `lo`: the end of
      the last non-space character of `s[lo..]`, or `lo` when there is none. */
  method SkipTrailing(s: string, lo: nat) returns (j: nat)
    requires lo <= |s|
    ensures lo <= j <= |s|
    ensures AllSpace(s[j..])
    ensures lo < j ==> !IsSpace(s[j - 1])
    ensures s[lo..j] == TrimEnd(s[lo..])
  {
    j := |s|;
    assert s[lo..j] == s[lo..];
    while j > lo && IsSpace(s[j - 1])
      invariant lo <= j <= |s|
      invariant TrimEnd(s[lo..j]) == TrimEnd(s[lo..])
      invariant AllSpace(s[j..])
    {
      assert s[lo..j][..j - 1 - lo] == s[lo..j - 1];
      assert s[j - 1..] == [s[j - 1]] + s[j..];
      j := j - 1;
    }
    if lo < j {
      assert s[lo..j][j - lo - 1] == s[j - 1];
    }
    TrimEndNoop(s[lo..j]);
  }
}

=== FILE: translation.dfy ===
/** `translate_to_thai` (bot.py lines 12-14): one call to the English-to-Thai
    translator, and the reply built from its answer.

    The reply is the Thai flag, a space and the translation, then a line
    break, then the British flag, a space and the (already trimmed) English
    text. It has two lines when neither text holds a line break of its own.
    `LaidOut` says where each part sits for every translation; `Parse` reads
    such a reply back, and the two are proved inverse to each other whenever
    the translation itself holds no line break.
 */
module Translation {
  import opened Outcomes

  /** "🇹🇭 ": regional indicators T and H, then a space. */
  const ThaiTag: string := "\U{1F1F9}\U{1F1ED} "

  /** "🇬🇧 ": regional indicators G and B, then a space. */
  const SourceTag: string := "\U{1F1EC}\U{1F1E7} "

  /** The language pair the translator is asked for. */
  const SourceLanguage: string := "en"
  const TargetLanguage: string := "th"

  /** The reply text: Thai line first, English line second. */
  function Format(thai: string, source: string): string {
    ThaiTag + (thai + ("\n" + (SourceTag + source)))
  }

  /** `reply` holds, by position: the Thai tag, `thai`, a line break, and
      then the source tag followed by `source` as the rest of the text. This
      says where each part sits without reading anything back, so it holds
      for a translation with line breaks too. */
  predicate LaidOut(reply: string, thai: string, source: string) {
    var n := |ThaiTag| + |thai|;
    && |reply| == n + 1 + |SourceTag| + |source|
    && reply[..|ThaiTag|] == ThaiTag
    && reply[|ThaiTag|..n] == thai
    && reply[n] == '\n'
    && reply[n + 1..] == SourceTag + source
  }

  /** The reply text has its parts where `LaidOut` says, for every
      translation and every source text. */
  lemma FormatLaidOut(thai: string, source: string)
    ensures LaidOut(Format(thai, source), thai, source)
  {
    var reply := Format(thai, source);
    var n := |ThaiTag| + |thai|;
    var tail := "\n" + (SourceTag + source);
    assert reply == (ThaiTag + thai) + tail;
    assert reply[..n] == ThaiTag + thai;
    assert reply[..|ThaiTag|] == (ThaiTag + thai)[..|ThaiTag|];
    assert reply[|ThaiTag|..n] == (ThaiTag + thai)[|ThaiTag|..];
    assert reply[n..] == tail;
  }

  /** `LaidOut` fixes the reply completely: only `Format` meets it. */
  lemma LaidOutIsFormat(reply: string, thai: string, source: string)
    requires LaidOut(reply, thai, source)
    ensures reply == Format(thai, source)
  {
    var n := |ThaiTag| + |thai|;
    assert reply == reply[..|ThaiTag|] + reply[|ThaiTag|..n] + [reply[n]] + reply[n + 1..];
  }

  /** Without the one-line condition the reply cannot be read back: a
      translation that itself contains a line break and the source tag gives
      the same reply as a different translation and source text. */
  lemma MultiLineIsAmbiguous()
    ensures Format("a\n" + SourceTag + "b", "c") == Format("a", "b\n" + SourceTag + "c")
    ensures "a\n" + SourceTag + "b" != "a"
  {
    var tail := "\n" + (SourceTag + "c");
    assert Format("a\n" + SourceTag + "b", "c") == ThaiTag + "a\n" + SourceTag + "b" + tail;
    assert Format("a", "b\n" + SourceTag + "c") == ThaiTag + "a\n" + SourceTag + "b" + tail;
  }

  /** The position of the first `c` in `s`, if any. */
  function IndexOf(s: string, c: char): (r: Option<nat>)
    ensures r.Some? ==> r.value < |s| && s[r.value] == c
    ensures r.Some? ==> c !in s[..r.value]
    ensures r.None? <==> c !in s
    decreases |s|
  {
    if |s| == 0 then None
    else if s[0] == c then Some(0)
    else match IndexOf(s[1..], c)
      case None => None
      case Some(k) => Some(k + 1)
  }

  /** What is left of `s` after the prefix `p`, if `s` starts with `p`. */
  function DropPrefix(p: string, s: string): (r: Option<string>)
    ensures r.Some? <==> |p| <= |s| && s[..|p|] == p
    ensures r.Some? ==> s == p + r.value
  {
    if |p| <= |s| && s[..|p|] == p then Some(s[|p|..]) else None
  }

  /** Reads a reply back into its Thai and English parts: the Thai part runs
      from after the Thai tag to the first line break, and the English part is
      everything after the source tag that must follow that line break. */
  function Parse(reply: string): Option<(string, string)> {
    match DropPrefix(ThaiTag, reply)
    case None => None
    case Some(rest) =>
      match IndexOf(rest, '\n')
      case None => None
      case Some(k) =>
        match DropPrefix(SourceTag, rest[k + 1..])
        case None => None
        case Some(source) => Some((rest[..k], source))
  }

  /** `translate_to_thai`: the translator is called once on `text` (from
      English to Thai); if it raises, the exception propagates, otherwise its
      answer is returned together with the reply built from it. */
  function TranslateToThai(text: string, translate: string -> Result<Option<string>>)
    : (r: Result<(Option<string>, string)>)
    ensures translate(text).Raised? <==> r.Raised?
    ensures r.Raised? ==> r.error == translate(text).error
    ensures r.Ok? ==> r.value.0 == translate(text).value
    ensures r.Ok? ==> LaidOut(r.value.1, Render(r.value.0), text)
    ensures r.Ok? && '\n' !in Render(r.value.0) ==> Parse(r.value.1) == Some((Render(r.value.0), text))
  {
    match translate(text)
    case Raised(e) => Raised(e)
    case Ok(thai) =>
      var reply := Format(Render(thai), text);
      FormatLaidOut(Render(thai), text);
      assert '\n' !in Render(thai) ==> Parse(reply) == Some((Render(thai), text)) by {
        if '\n' !in Render(thai) {
          ParseFormat(Render(thai), text);
        }
      }
      Ok((thai, reply))
  }

  /** Reading back a reply recovers exactly the translation and the source
      text it was built from, provided the translation is a single line. */
  lemma ParseFormat(thai: string, source: string)
    requires '\n' !in thai
    ensures Parse(Format(thai, source)) == Some((thai, source))
  {
    var after := SourceTag + source;
    var rest := thai + ("\n" + after);
    DropPrefixOfJoin(ThaiTag, rest);
    IndexAfterPrefix(thai, "\n" + after, '\n');
    assert rest[..|thai|] == thai;
    assert rest[|thai| + 1..] == after;
    DropPrefixOfJoin(SourceTag, source);
    ParseSteps(Format(thai, source), rest, |thai|, source);
  }

  /** `Parse` in three steps: the Thai tag is dropped, the first line break
      found, and the source tag dropped from what follows it. */
  lemma ParseSteps(reply: string, rest: string, k: nat, source: string)
    requires DropPrefix(ThaiTag, reply) == Some(rest)
    requires IndexOf(rest, '\n') == Some(k)
    requires k < |rest| && DropPrefix(SourceTag, rest[k + 1..]) == Some(source)
    ensures Parse(reply) == Some((rest[..k], source))
  {
  }

  /** `DropPrefix` undoes joining a prefix on. */
  lemma DropPrefixOfJoin(p: string, s: string)
    ensures DropPrefix(p, p + s) == Some(s)
  {
    assert (p + s)[..|p|] == p;
  }

  /** Whatever `Parse` accepts is a reply built by `Format` from a one-line
      translation: the converse of `ParseFormat`. */
  lemma FormatParse(reply: string, thai: string, source: string)
    requires Parse(reply) == Some((thai, source))
    ensures '\n' !in thai
    ensures Format(thai, source) == reply
  {
    var rest := DropPrefix(ThaiTag, reply).value;
    var k := IndexOf(rest, '\n').value;
    var tail := rest[k + 1..];
    assert thai == rest[..k] && DropPrefix(SourceTag, tail) == Some(source);
    SplitAtIndex(rest, k);
  }

  /** A sequence is what comes before index `k`, the element at `k`, and
      what comes after it. */
  lemma SplitAtIndex(s: string, k: nat)
    requires k < |s|
    ensures s == s[..k] + ([s[k]] + s[k + 1..])
  {
    assert s == s[..k] + s[k..];
    assert s[k..] == [s[k]] + s[k + 1..];
  }

  /** Two one-line translations give the same reply only if both the
      translations and the source texts agree. */
  lemma FormatInjective(thai1: string, source1: string, thai2: string, source2: string)
    requires '\n' !in thai1 && '\n' !in thai2
    requires Format(thai1, source1) == Format(thai2, source2)
    ensures thai1 == thai2 && source1 == source2
  {
    ParseFormat(thai1, source1);
    ParseFormat(thai2, source2);
  }

  /** The first line break of `prefix + suffix` is the first of `suffix`,
      shifted, when `prefix` has none. */
  lemma {:induction false} IndexAfterPrefix(prefix: string, suffix: string, c: char)
    requires c !in prefix && |suffix| > 0 && suffix[0] == c
    ensures IndexOf(prefix + suffix, c) == Some(|prefix|)
    decreases |prefix|
  {
    if |prefix| > 0 {
      assert (prefix + suffix)[1..] == prefix[1..] + suffix;
      IndexAfterPrefix(prefix[1..], suffix, c);
    }
  }
}

=== FILE: upload.dfy ===
/** The upload of the voice clip (bot.py line 44):
    `reply_audio(audio=InputFile(voice))`, where `voice` is the file name
    `make_tts` returned, a `str`.

    bot.py imports `ApplicationBuilder` and `ContextTypes`, which
    python-telegram-bot has from version 20 on. From that version, `InputFile`
    given a `str` uploads the UTF-8 encoding of the string itself; only a file
    object or `bytes` is taken as the file's content. So the bytes sent are
    those of the name "thai_voice.mp3", and the mp3 that `make_tts` saved
    (line 23) is never read. `UploadAsWritten` models that; `UploadOf` is the
    evidently intended upload of the saved file's content.

    The file system is a map from file names to contents.
 */
module Upload {
  import opened Outcomes
  import opened Speech

  /** An octet. */
  type Byte = b: int | 0 <= b < 0x100

  /** File name to file content. */
  type Files = map<string, seq<Byte>>

  /** The UTF-8 encoding of one Unicode scalar value (section 3 of RFC 3629):
      one byte below U+0080, otherwise a lead byte and continuation bytes. */
  function EncodeChar(c: char): (r: seq<Byte>)
    ensures 1 <= |r| <= 4
    ensures |r| == 1 <==> (c as int) < 0x80
    ensures (c as int) < 0x80 ==> r == [c as int]
    ensures |r| > 1 ==> 0xC0 <= r[0] && forall k :: 1 <= k < |r| ==> 0x80 <= r[k] < 0xC0
  {
    var n := c as int;
    if n < 0x80 then [n]
    else if n < 0x800 then [0xC0 + n / 0x40, 0x80 + n % 0x40]
    else if n < 0x10000 then [0xE0 + n / 0x1000, 0x80 + (n / 0x40) % 0x40, 0x80 + n % 0x40]
    else [0xF0 + n / 0x40000, 0x80 + (n / 0x1000) % 0x40, 0x80 + (n / 0x40) % 0x40, 0x80 + n % 0x40]
  }

  /** `s.encode("utf-8")`. */
  function Utf8(s: string): (r: seq<Byte>)
    ensures |s| <= |r| <= 4 * |s|
    decreases |s|
  {
    if s == [] then [] else EncodeChar(s[0]) + Utf8(s[1..])
  }

  /** A string of characters below U+0080 encodes to its code points, one
      byte each. */
  lemma {:induction false} Utf8OfAscii(s: string)
    requires forall k :: 0 <= k < |s| ==> (s[k] as int) < 0x80
    ensures |Utf8(s)| == |s|
    ensures forall k :: 0 <= k < |s| ==> Utf8(s)[k] == s[k] as int
    decreases |s|
  {
    if s != [] {
      Utf8OfAscii(s[1..]);
      assert Utf8(s) == [s[0] as int] + Utf8(s[1..]);
    }
  }

  /** What line 44 uploads, as written: the encoding of the name it is
      given, whatever the files hold. */
  function UploadAsWritten(voice: string, files: Files): (bytes: seq<Byte>) {
    Utf8(voice)
  }

  /** The upload the bot evidently intends: the content of the named file,
      as `InputFile(open(voice, "rb"))` would send; a missing file raises. */
  function UploadOf(voice: string, files: Files): (r: Result<seq<Byte>>) {
    if voice in files then Ok(files[voice])
    else Raised(Error("No such file or directory: '" + voice + "'"))
  }

  /** As written, the upload of the voice file is the fourteen bytes of the
      name "thai_voice.mp3", the same whatever audio was saved. */
  lemma AsWrittenSendsTheName(files1: Files, files2: Files)
    ensures UploadAsWritten(VoiceFile, files1) == UploadAsWritten(VoiceFile, files2)
    ensures |UploadAsWritten(VoiceFile, files1)| == 14
    ensures UploadAsWritten(VoiceFile, files1)[0] == 0x74
  {
    var name := VoiceFile;
    assert forall k :: 0 <= k < |name| ==> (name[k] as int) < 0x80;
    Utf8OfAscii(name);
  }

  /** A saved mp3 that starts with an ID3 tag ("ID3") is not what the code
      as written uploads: the upload starts with 't'. */
  lemma AsWrittenLosesTheAudio(files: Files, audio: seq<Byte>)
    requires |audio| >= 3 && audio[..3] == [0x49, 0x44, 0x33]
    ensures UploadAsWritten(VoiceFile, files[VoiceFile := audio]) != audio
  {
    AsWrittenSendsTheName(files, files[VoiceFile := audio]);
    assert audio[0] == audio[..3][0];
  }

  /** The intended upload sends exactly the audio `make_tts` saved under the
      voice file name, and raises when no file of that name exists. */
  lemma UploadSendsTheSavedAudio(files: Files, audio: seq<Byte>)
    ensures UploadOf(VoiceFile, files[VoiceFile := audio]) == Ok(audio)
    ensures VoiceFile !in files ==> UploadOf(VoiceFile, files).Raised?
  {
  }
}
